=== FILE: README.md ===
# SSH log normalisation — a Dafny model

SSH Sentinel (`app.py`) is a Streamlit dashboard for SSH authentication logs
exported as `;`-separated text. Before anything is charted, `load_data` turns
every line of the upload into one fixed-shape record:

1. the line is split on `;` and repaired to exactly eight fields
   (Timestamp, Lab, Service, PID, IP, User, EventCode, Message); missing
   fields become empty, and surplus fields are folded back into the message;
2. the timestamp is coerced, and an unparsable one is replaced by "now"
   while the row is kept and counted;
3. the IP field is cleaned: the first dotted-quad substring is taken and
   validated as an IPv4 address, otherwise it becomes the sentinel
   "IP Inconnue" or "IP Invalide"; a sentinel is then replaced by the first
   dotted quad found in the message, when there is one;
4. the message is given one of eight French event labels by a fixed keyword
   priority;
5. when geolocation is on, every distinct IP is looked up once through
   `get_location`, which keeps its answers in the module-level dict
   `ip_location_cache`, and each row gets its IP's place text and
   coordinates.

The project models steps 1–5 as pure functions plus two short loops, and
proves what each step promises.

| file | module | models |
|---|---|---|
| `options.dfy` | `Options` | the optional value (`None` in Python) |
| `text.dfy` | `Text` | ASCII lower-casing, substring search, `str.split`/`str.join` on one character |
| `rows.dfy` | `Rows` | the `csv.reader` split and the eight-field repair |
| `categories.dfy` | `Categories` | `categorize_event` |
| `ip_address.dfy` | `IpAddress` | the dotted-quad regex search, IPv4 validation, `clean_ip`, the message fallback |
| `geolocation.dfy` | `Geolocation` | the place text, `get_location` and its cache, the per-unique-IP pass |
| `timestamps.dfy` | `Timestamps` | timestamp coercion and the invalid-timestamp count |
| `pipeline.dfy` | `Pipeline` | `load_data` put together |

Modelling choices:

- **Regex search.** `re.search(r'\d{1,3}\.\d{1,3}\.\d{1,3}\.\d{1,3}', s)` is
  modelled exactly, backtracking included. At each start the first three
  groups must be a whole run of digits followed by `.`. The last group takes
  up to three digits. The leftmost start wins. `MatchAtSound` and
  `MatchAtComplete` tie this matcher to an independent definition: a
  dotted quad is a text that splits on `.` into four groups of 1–3 digits.
  `Search` returns the leftmost start, and at that start the longest match.
- **IPv4 validity** (`ipaddress.ip_address`) follows current CPython. An
  address has four decimal octets of 1–3 digits. Each octet is at most 255.
  A leading zero is allowed only in "0" itself. Only an IPv4 address can
  parse from a text shaped like a dotted quad, so IPv6 plays no part.
- **The message fallback is not validated.** The code replaces a sentinel
  with the first dotted quad found in the message. It never checks that this
  quad is a valid address, so "999.1.1.1" can reach the IP column.
  `ResolveIp` states this as written. The model proves three things: the
  final IP is never "IP Invalide"; it is "IP Inconnue" or dotted-quad
  shaped; and a valid cleaned field is kept. The model does not prove that
  the final IP is always a valid address.
- **Geolocation's environment** is a parameter, `GeoEnv`. It records whether
  the database download succeeded and holds the city reader as a lookup
  function, or nothing when the reader could not be opened. A lookup either
  finds a record, finds nothing (`None`, or an empty record, which the
  program treats alike), or raises. A raise includes the reader's own error
  on an unvalidated fallback IP.
- **The cache** `ip_location_cache` (app.py:106) is threaded through
  explicitly, as a map in and a map out. Streamlit re-executes the script,
  and so re-creates the dict, on every rerun. `load_data` is called once per
  run and is the only caller of `get_location`, once per distinct IP. So in
  the program each pass starts from an empty cache, and the cache-hit branch
  (app.py:124-125) is not reached. The model allows any starting cache:
  `GetLocationTransparent` and `GeolocateRows` cover a cache of correct
  entries, and `EmptyCacheSound` shows that the real empty start is one.
- **Timestamps.** The parser (`pd.to_datetime(..., errors='coerce')`) is a
  function from the raw field to an optional instant. "now" is a single
  instant passed in.
- **Text** is ASCII: `str.lower` and `\d` are modelled on ASCII letters and
  digits.

## Model

| member | source | states |
|---|---|---|
| Rows.Fields | app.py:193-195 | a line splits into no fields exactly when it is blank, and no field contains the delimiter |
| Rows.FieldsRoundTrip | app.py:193-195 | joining the fields of every line with `;` gives the line back (a blank line has no fields) |
| Rows.Repair | app.py:199-206 | the repaired row has eight fields; a short row is padded with empty fields after its own; an eight-field row is unchanged; a long row keeps its first seven fields and its eighth is the rest joined with `;` |
| Rows.RepairKeepsText | app.py:203-205 | folding surplus fields into the message loses no text: the repaired row joins to the same text as the original |
| Rows.LongLineRoundTrip | app.py:193-206 | for a line of eight or more fields, the repaired row joins back to the line, and the message is everything after the seventh `;` |
| Rows.ShortLineKept | app.py:193-201 | a blank line becomes eight empty fields; a short non-blank line is a prefix of its repaired row, and that prefix joins back to the line |
| Text.Lower | app.py:72 | the lower-cased text has no capital letter and differs from the original only in letter case |
| Text.LowerUnique | app.py:72 | those two facts determine the lower-cased text: any text without capitals that agrees with the original up to case is its lower-casing |
| Text.LowerAbsorbsCase | app.py:72 | lower-casing is idempotent and erases any earlier upper-casing |
| Categories.Categorize | app.py:71-88 | a non-"other" category has one of its keywords in the lower-cased message, and no category of higher priority does |
| Categories.CategorizeEvent | app.py:71-88 | the result is always one of the eight labels, namely the label of the message's category |
| Categories.RankIsPosition | app.py:73-88 | each category's priority is its position in the rule order, which lists every category once |
| Categories.LabelsDistinct | app.py:73-88 | the eight labels are pairwise different, so a label identifies its category |
| Categories.CategorizeIff | app.py:73-88 | a message gets category `c` exactly when it mentions a keyword of `c` and of no higher-priority category (both directions) |
| Categories.OtherIffNoKeyword | app.py:87-88 | "Autre Événement" is given exactly when no keyword of any category appears |
| Categories.CategorizeIgnoresCase | app.py:72 | the category does not change under lower- or upper-casing of the message |
| Categories.FailedPasswordWinsOverInvalidUser | app.py:73-78 | a message mentioning "failed password" is a failed attempt, whatever else it mentions |
| Categories.ExampleFailedPasswordForInvalidUser | app.py:73-74 | "Failed password for invalid user …" is labelled "Tentative Échouée" |
| IpAddress.IsValidIPv4 | app.py:98-102 | the address test: exactly four dot-separated octets of one to three digits, no leading zero except in "0", each at most 255 |
| IpAddress.ValidIPv4Iff | app.py:98-102 | four digit groups joined by dots form a valid address exactly when every group is an octet |
| IpAddress.ExampleLeadingZeroIsInvalid | app.py:95-102 | "010.0.0.1" is found by the regex but rejected for its leading zero, giving "IP Invalide" |
| IpAddress.ValidIsDottedQuad | app.py:95-100 | every text accepted as an IPv4 address has the dotted-quad shape |
| IpAddress.SentinelsAreNotDottedQuads | app.py:90-103 | neither sentinel text has the dotted-quad shape, so neither can be mistaken for an address |
| IpAddress.DigitRun | app.py:95 | the run of digits found at a position is all digits and cannot be extended |
| IpAddress.GroupAndDotAt | app.py:95 | a found group is 1–3 digits followed by `.` |
| IpAddress.LastGroupAt | app.py:95 | a found last group is 1–3 digits |
| IpAddress.MatchAt | app.py:95 | a match anchored at a position ends within the text, no earlier than it starts |
| IpAddress.MatchAtSound | app.py:95 | whatever the matcher returns at a start is a dotted quad |
| IpAddress.MatchAtComplete | app.py:95 | if a dotted quad starts at a position, the matcher succeeds there, with a match at least as long |
| IpAddress.FirstStart | app.py:95 | a start the scan returns lies at or after where the scan began, and the pattern matches there |
| IpAddress.FirstStartLeftmost | app.py:95 | the scan for a start finds none before the first start where the matcher succeeds |
| IpAddress.FirstStartCorrect | app.py:95 | the scan returns the leftmost start with a match, and none exactly when no start matches |
| IpAddress.Search | app.py:95 | the search returns the leftmost-then-longest dotted quad, and nothing exactly when the text has none |
| IpAddress.FirstMatchUnique | app.py:95 | there is at most one leftmost-longest match |
| IpAddress.FirstMatchText | app.py:95-97 | the extracted text is the leftmost-longest dotted quad, and absent exactly when the text contains none |
| IpAddress.CleanIp | app.py:90-103 | the cleaned IP is "IP Inconnue", "IP Invalide" or a valid IPv4 address |
| IpAddress.CleanIpCases | app.py:90-103 | the cleaned IP is "IP Inconnue" for an empty or "unknown" field or one without a dotted quad; otherwise it is that first quad when valid, and "IP Invalide" when not |
| IpAddress.ExampleOutOfRangeIsInvalid | app.py:95-102 | "999.999.999.999" is found by the regex but rejected, giving "IP Invalide" |
| IpAddress.FillFromMessage | app.py:236-242 | a non-sentinel IP is kept; a sentinel is replaced by the message's first dotted quad, or by "IP Inconnue" when there is none |
| IpAddress.ResolveIp | app.py:233-242 | the final IP is never "IP Invalide", is "IP Inconnue" or dotted-quad shaped, and a valid cleaned address survives unchanged |
| Geolocation.PlaceText | app.py:139-148 | the place text is never empty: "city, country", whichever one is present, or "Localisation Inconnue" |
| Geolocation.FoundRecordLocation | app.py:132-150 | for a record found in the database, the coordinates are copied; French city and country names give "city, country"; the ISO code stands in for a missing French country name but not for an empty one; a record naming no place gives "Localisation Inconnue" |
| Geolocation.Resolve | app.py:121-160 | without the cache, a short-circuited address gives the unknown location, and a raising lookup gives the error location |
| Geolocation.GetLocation | app.py:118-160 | sentinels, loopback names and a failed download give the unknown location and leave the cache alone; a hit is answered from the cache; a miss computes the location and stores it unless the lookup raised; no existing entry changes |
| Geolocation.GetLocationRepeatable | app.py:124-157 | asking again for the same IP gives the same answer and leaves the cache as the first call left it |
| Geolocation.GetLocationTransparent | app.py:121-157 | with a cache holding only correct entries, the answer equals the uncached computation and the cache stays correct |
| Geolocation.EmptyCacheSound | app.py:106 | the empty cache each run starts from holds only correct entries |
| Geolocation.Unique | app.py:266 | the distinct IPs are the same set as the rows' IPs, without repetition, in order of first appearance |
| Geolocation.UniqueKeepsOrder | app.py:266 | adding the last IP when it is new keeps the distinct IPs in order of first appearance |
| Geolocation.PassStep | app.py:269-270 | one `get_location` call for a new IP keeps the pass's state: table entries as expected, old cache entries untouched, new entries uncached answers for stored lookups only, every stored lookup in the cache |
| Geolocation.GeolocateRows | app.py:266-276 | every row gets the location looked up for its IP, rows with the same IP get the same location, the cache only gains uncached answers for rows' IPs whose lookup is neither skipped nor raising, and every such lookup does end up in the cache, and with a correct cache every row gets the uncached location |
| Timestamps.CountUnparsed | app.py:226 | the invalid count never exceeds the number of rows |
| Timestamps.CountIsReplacedRows | app.py:226-230 | the invalid count equals the number of rows whose timestamp is replaced by "now" |
| Timestamps.Coerce | app.py:219-230 | every row keeps a timestamp: the parsed one, or "now" when parsing fails; the reported count is the number of unparsable rows |
| Timestamps.NoneReplacedWhenAllParse | app.py:227-230 | when every timestamp parses, the count is zero and no row is replaced |
| Pipeline.LineIp | app.py:193-242 | a row's final IP is never "IP Invalide" and is "IP Inconnue" or dotted-quad shaped |
| Pipeline.Normalise | app.py:197-245 | a record's IP is never "IP Invalide" and is "IP Inconnue" or dotted-quad shaped; its category is its message's; the timestamp and location are the given ones; a line of eight or more fields is rebuilt from the record's Lab to EventCode fields and message, with the line's own timestamp and IP fields put back; a shorter line of at most seven fields has an empty message |
| Pipeline.RowRebuildsLine | app.py:193-206 | a line of eight or more fields is its repaired row's first seven fields joined with `;`, then `;`, then the message, and the timestamp and IP fields are the line's own |
| Pipeline.NormaliseAllColumns | app.py:197-245 | the IP column of the built records is the lines' resolved IPs, and their timestamp and location columns are exactly the ones given |
| Pipeline.Locate | app.py:260-283 | with geolocation on, every row gets its IP's location from the per-unique-IP pass, every lookup that is not skipped and does not raise is stored in the cache with the row's location, and new cache entries are uncached answers for rows' IPs whose lookup was stored, so skipped addresses and raising lookups stay out; off, every row reads "Géolocalisation désactivée" without coordinates and the cache is untouched; rows with the same IP always agree and old cache entries never change |
| Pipeline.CountIsUnparsedRows | app.py:219-230 | the invalid-timestamp count equals the number of lines whose timestamp field fails to parse |
| Pipeline.LoadData | app.py:165-288 | no line is dropped; every record is its line normalised, with the coerced timestamp and the location from the geolocation pass, and the invalid count is the number of unparsable timestamps |

## Left out

- Reading the upload: `file.getvalue()`, encoding detection with `chardet`, and decoding with replacement characters. The model starts from the decoded lines.
- `csv.reader` failure modes (app.py:193-195, 212-214), on which `load_data` returns an empty table: a carriage return inside a line, such as a stray `\r` in a message or a file with CR-only line ends (which `io.StringIO` does not split), raises "new-line character seen in unquoted field"; so do the field-size limit and, in older Python releases, NUL characters. The model splits every line plainly on `;`.
- The on-disk result cache (SHA-256 key, `joblib`), because it only replays an earlier result.
- Sampling (app.py:253-256): it picks rows at random. Geolocation then runs on the sampled rows; the model geolocates every row.
- The Hour, DayOfWeek and Date columns (app.py:248-250), because they are calendar arithmetic on the timestamp.
- The outer `try`/`except` of `load_data`, which returns an empty table on any unexpected error.
- Streamlit messages, progress bars and the dashboard.
- Downloading the GeoLite database and opening the reader. Both are folded into the fixed `GeoEnv`. In the program, a reader that failed to open is retried on the next lookup; the model keeps it absent for the whole run.
- Latitude and longitude are opaque values that are only copied, with no floating-point arithmetic.
- Timestamp parsing with `format='mixed'`, and `pd.Timestamp.now()`. Both are parameters.
- Unicode: `str.lower` and `\d` are modelled on ASCII only. A non-ASCII character that lower-cases to an ASCII letter, or a non-ASCII decimal digit, is not modelled.
- Older Python releases whose `ipaddress` accepted leading zeros in IPv4 octets. The model follows the rule that rejects them.

=== FILE: categories.dfy ===
/**
 * Event classification: the lower-cased message is checked against a fixed,
 * ordered list of keyword rules and the first rule that fires gives one of
 * eight categories.
 */
module Categories {
  import opened Text

  datatype Category =
    | FailedAttempt
    | SuccessfulLogin
    | InvalidUser
    | Intrusion
    | Disconnection
    | SessionOpened
    | SessionClosed
    | Other

  /** The label the dashboard shows for each category. */
  function Label(c: Category): string {
    match c
    case FailedAttempt => "Tentative Échouée"
    case SuccessfulLogin => "Connexion Réussie"
    case InvalidUser => "Utilisateur Invalide"
    case Intrusion => "Tentative d'Intrusion"
    case Disconnection => "Déconnexion"
    case SessionOpened => "Session Ouverte"
    case SessionClosed => "Session Fermée"
    case Other => "Autre Événement"
  }

  /** The categories in rule order; the fallback comes last. */
  const RuleOrder: seq<Category> :=
    [FailedAttempt, SuccessfulLogin, InvalidUser, Intrusion, Disconnection, SessionOpened, SessionClosed, Other]

  /** The eight labels an event can receive. */
  const Labels: set<string> := set c | c in RuleOrder :: Label(c)

  /** Position of a category's rule in the chain; earlier rules win. */
  function Rank(c: Category): nat {
    match c
    case FailedAttempt => 0
    case SuccessfulLogin => 1
    case InvalidUser => 2
    case Intrusion => 3
    case Disconnection => 4
    case SessionOpened => 5
    case SessionClosed => 6
    case Other => 7
  }

  /** A category's rank is its position in the rule order. */
  lemma RankIsPosition(c: Category)
    ensures Rank(c) < |RuleOrder| && RuleOrder[Rank(c)] == c
  {
  }

  /** The keywords whose presence fires a category's rule; the fallback has none. */
  function Keywords(c: Category): seq<string> {
    match c
    case FailedAttempt => ["failed password"]
    case SuccessfulLogin => ["accepted password"]
    case InvalidUser => ["invalid user"]
    case Intrusion => ["break-in", "intrusion"]
    case Disconnection => ["disconnected"]
    case SessionOpened => ["session opened"]
    case SessionClosed => ["session closed"]
    case Other => []
  }

  /** Some keyword of category `c` occurs in the (already lower-cased) text. */
  predicate Mentions(text: string, c: Category) {
    exists w :: w in Keywords(c) && Contains(text, w)
  }

  /**
   * `categorize_event`: the first rule, in rule order, whose keyword occurs in
   * the lower-cased message. The result's own rule fires (unless it is the
   * fallback) and no earlier rule does.
   */
  function Categorize(message: string): (c: Category)
    ensures c != Other ==> Mentions(Lower(message), c)
    ensures forall d :: Rank(d) < Rank(c) ==> !Mentions(Lower(message), d)
  {
    var msg := Lower(message);
    if Contains(msg, "failed password") then FailedAttempt
    else if Contains(msg, "accepted password") then SuccessfulLogin
    else if Contains(msg, "invalid user") then InvalidUser
    else if Contains(msg, "break-in") || Contains(msg, "intrusion") then Intrusion
    else if Contains(msg, "disconnected") then Disconnection
    else if Contains(msg, "session opened") then SessionOpened
    else if Contains(msg, "session closed") then SessionClosed
    else Other
  }

  /** The label `categorize_event` returns: always one of the eight. */
  function CategorizeEvent(message: string): (name: string)
    ensures name in Labels
    ensures name == Label(Categorize(message))
  {
    RankIsPosition(Categorize(message));
    Label(Categorize(message))
  }

  /** Distinct categories have distinct labels, so a label identifies its category. */
  lemma LabelsDistinct(a: Category, b: Category)
    requires Label(a) == Label(b)
    ensures a == b
  {
  }

  /**
   * The category is characterised by the rule table alone: `message` gets
   * category `c` exactly when `c`'s rule fires (or `c` is the fallback) and
   * no rule ranked before `c` fires.
   */
  lemma CategorizeIff(message: string, c: Category)
    ensures Categorize(message) == c <==>
      (c == Other || Mentions(Lower(message), c))
      && forall d :: Rank(d) < Rank(c) ==> !Mentions(Lower(message), d)
  {
  }

  /** The fallback label is given exactly when no keyword of any rule occurs. */
  lemma OtherIffNoKeyword(message: string)
    ensures Categorize(message) == Other <==> forall d :: !Mentions(Lower(message), d)
  {
    CategorizeIff(message, Other);
  }

  /** Classification ignores letter case: lower- or upper-casing the message first changes nothing. */
  lemma CategorizeIgnoresCase(message: string)
    ensures Categorize(Lower(message)) == Categorize(message)
    ensures Categorize(Upper(message)) == Categorize(message)
  {
    LowerAbsorbsCase(message);
  }

  /**
   * A message mentioning "failed password" counts as a failed attempt whatever
   * else it mentions; in particular a failed password for an invalid user is
   * not an invalid-user event.
   */
  lemma FailedPasswordWinsOverInvalidUser(message: string)
    requires Contains(Lower(message), "failed password")
    ensures CategorizeEvent(message) == "Tentative Échouée"
  {
  }

  /** A typical sshd line for a failed login to an unknown account. */
  lemma ExampleFailedPasswordForInvalidUser()
    ensures CategorizeEvent("Failed password for invalid user") == "Tentative Échouée"
  {
    var msg := Lower("Failed password for invalid user");
    assert forall i | 0 <= i < 15 :: msg[i] == "failed password"[i];
    assert msg[0..15] == "failed password";
    assert OccursAt(msg, "failed password", 0);
  }
}

=== FILE: geolocation.dfy ===
/**
 * Geolocation of the cleaned IPs: building the place text from a city
 * database record, `get_location` as a state machine over its cache, and
 * the per-unique-IP pass that attaches a location to every row.
 *
 * The city database reader is a parameter (a lookup function); whether the
 * database download succeeded and whether the reader could be opened are
 * fixed for the run.
 */
module Geolocation {
  import opened Options
  import IpAddress

  /** A latitude or longitude as the database reports it; the model only copies it. */
  type Degrees = real

  /** What `get_location` returns: the place text and the optional coordinates. */
  datatype Location = Location(text: string, lat: Option<Degrees>, lon: Option<Degrees>)

  /** Place text for an IP with no known place. */
  const UnknownPlace: string := "Localisation Inconnue"

  /** Place text when the database reader could not be opened. */
  const MissingDatabase: string := "Base GeoLite absente"

  /** Place text when the lookup raised an error. */
  const LookupError: string := "Erreur de Géolocalisation"

  /** Place text of every row when geolocation is switched off. */
  const Disabled: string := "Géolocalisation désactivée"

  /** The location of an IP nothing is known about. */
  const Nowhere: Location := Location(UnknownPlace, None, None)

  /**
   * The parts of a database record the program reads: the localised city
   * names, the localised country names, the country's ISO code ("" when the
   * record has none) and the coordinates. A missing part is an empty map.
   */
  datatype CityRecord = CityRecord(
    cityNames: map<string, string>,
    countryNames: map<string, string>,
    countryIsoCode: string,
    latitude: Option<Degrees>,
    longitude: Option<Degrees>)

  /** Outcome of asking the reader about one IP: a record, nothing (None or an empty record), or an exception. */
  datatype Lookup = Found(record: CityRecord) | NotFound | Raises

  /** The run's geolocation setting: did the database download succeed, and the reader if it could be opened. */
  datatype GeoEnv = GeoEnv(downloaded: bool, reader: Option<string -> Lookup>)

  /** The French city name, or "" when the record has none. */
  function CityName(r: CityRecord): (name: string)
  {
    if "fr" in r.cityNames then r.cityNames["fr"] else ""
  }

  /** The French country name; the ISO code stands in only when there is no French name at all. */
  function CountryName(r: CityRecord): (name: string)
  {
    if "fr" in r.countryNames then r.countryNames["fr"] else r.countryIsoCode
  }

  /**
   * The place text: the city, then ", " and the country when both are
   * present; whichever one is present otherwise; UnknownPlace when neither
   * is.
   */
  function PlaceText(city: string, country: string): (text: string)
    ensures text != ""
    ensures city != "" && country != "" ==> text == city + ", " + country
    ensures city != "" && country == "" ==> text == city
    ensures city == "" && country != "" ==> text == country
    ensures city == "" && country == "" ==> text == UnknownPlace
  {
    var text :=
      if country != "" then city + (if city != "" then ", " else "") + country
      else city;
    if text == "" then UnknownPlace else text
  }

  /** The addresses `get_location` answers without asking anyone: the two sentinels and the loopback names. */
  const SkippedAddresses: set<string> := {IpAddress.Unknown, IpAddress.Invalid, "localhost", "127.0.0.1"}

  /** `get_location` returns Nowhere at once, before looking at the cache. */
  predicate ShortCircuits(env: GeoEnv, ip: string) {
    ip in SkippedAddresses || !env.downloaded
  }

  /** The lookup raises for this IP, so the answer is not cached. */
  predicate LookupRaises(env: GeoEnv, ip: string) {
    env.reader.Some? && env.reader.value(ip).Raises?
  }

  /** The location `get_location` computes for `ip` when the cache does not answer. */
  function Resolve(env: GeoEnv, ip: string): (loc: Location)
    ensures loc.text != ""
    ensures ShortCircuits(env, ip) ==> loc == Nowhere
    ensures LookupRaises(env, ip) && !ShortCircuits(env, ip) ==> loc == Location(LookupError, None, None)
  {
    if ShortCircuits(env, ip) then Nowhere
    else
      match env.reader
      case None => Location(MissingDatabase, None, None)
      case Some(lookup) =>
        match lookup(ip)
        case Found(r) => Location(PlaceText(CityName(r), CountryName(r)), r.latitude, r.longitude)
        case NotFound => Nowhere
        case Raises => Location(LookupError, None, None)
  }

  /**
   * The location of an IP the database has a record for, in terms of the
   * record: the coordinates are copied; the French city and country names
   * give "city, country"; the ISO code stands in for a country with no French
   * name, but not for an empty French name; and a record naming no place
   * gives UnknownPlace.
   */
  lemma FoundRecordLocation(env: GeoEnv, ip: string, r: CityRecord)
    requires !ShortCircuits(env, ip) && env.reader.Some? && env.reader.value(ip) == Found(r)
    ensures Resolve(env, ip).lat == r.latitude && Resolve(env, ip).lon == r.longitude
    ensures "fr" in r.cityNames && r.cityNames["fr"] != "" && "fr" in r.countryNames && r.countryNames["fr"] != "" ==>
      Resolve(env, ip).text == r.cityNames["fr"] + ", " + r.countryNames["fr"]
    ensures "fr" in r.cityNames && r.cityNames["fr"] != "" && "fr" !in r.countryNames && r.countryIsoCode != "" ==>
      Resolve(env, ip).text == r.cityNames["fr"] + ", " + r.countryIsoCode
    ensures "fr" in r.cityNames && "fr" in r.countryNames && r.countryNames["fr"] == "" ==>
      Resolve(env, ip).text == (if r.cityNames["fr"] != "" then r.cityNames["fr"] else UnknownPlace)
    ensures "fr" !in r.cityNames && "fr" !in r.countryNames ==>
      Resolve(env, ip).text == (if r.countryIsoCode != "" then r.countryIsoCode else UnknownPlace)
    ensures "fr" !in r.cityNames && "fr" in r.countryNames && r.countryNames["fr"] == "" ==>
      Resolve(env, ip).text == UnknownPlace
  {
    assert Resolve(env, ip) == Location(PlaceText(CityName(r), CountryName(r)), r.latitude, r.longitude);
  }

  /** A lookup of `ip` that `get_location` keeps in the cache: not short-circuited, and not raising. */
  predicate Stored(env: GeoEnv, ip: string) {
    !ShortCircuits(env, ip) && !LookupRaises(env, ip)
  }

  /**
   * `get_location` against the cache: the location it returns and the cache
   * afterwards. Short-circuited addresses leave the cache alone, a cached
   * address is answered from the cache, and a computed answer is stored
   * unless the lookup raised. Existing entries are never overwritten.
   */
  function GetLocation(env: GeoEnv, cache: map<string, Location>, ip: string): (res: (Location, map<string, Location>))
    ensures ShortCircuits(env, ip) ==> res == (Nowhere, cache)
    ensures !ShortCircuits(env, ip) && ip in cache ==> res == (cache[ip], cache)
    ensures !ShortCircuits(env, ip) && ip !in cache ==> res.0 == Resolve(env, ip)
    ensures forall k :: k in cache ==> k in res.1 && res.1[k] == cache[k]
    ensures forall k :: k in res.1 && k !in cache ==> k == ip && res.1[k] == res.0
    ensures ip in res.1 <==> ip in cache || Stored(env, ip)
  {
    if ShortCircuits(env, ip) then (Nowhere, cache)
    else if ip in cache then (cache[ip], cache)
    else
      var loc := Resolve(env, ip);
      if LookupRaises(env, ip) then (loc, cache) else (loc, cache[ip := loc])
  }

  /** Every cached entry is what a lookup without the cache would give. */
  predicate CacheSound(env: GeoEnv, cache: map<string, Location>) {
    forall k :: k in cache ==> cache[k] == Resolve(env, k)
  }

  /** Asking twice gives the same answer, and the second call changes nothing. */
  lemma GetLocationRepeatable(env: GeoEnv, cache: map<string, Location>, ip: string)
    ensures var (loc, cache') := GetLocation(env, cache, ip);
      GetLocation(env, cache', ip) == (loc, cache')
  {
  }

  /** With a sound cache, memoisation is invisible: the answer is the uncached one, and the cache stays sound. */
  lemma GetLocationTransparent(env: GeoEnv, cache: map<string, Location>, ip: string)
    requires CacheSound(env, cache)
    ensures GetLocation(env, cache, ip).0 == Resolve(env, ip)
    ensures CacheSound(env, GetLocation(env, cache, ip).1)
  {
  }

  /** Without I/O, a fresh cache is sound. */
  lemma EmptyCacheSound(env: GeoEnv)
    ensures CacheSound(env, map[])
  {
  }

  /** The distinct IPs in order of first appearance (`Series.unique`). */
  function Unique(ips: seq<string>): (u: seq<string>)
    ensures forall x :: x in u <==> x in ips
    ensures forall a, b :: 0 <= a < b < |u| ==> u[a] != u[b]
    ensures |u| <= |ips|
    ensures forall a, b, j :: 0 <= a < b < |u| && 0 <= j < |ips| && ips[j] == u[b] ==> u[a] in ips[..j]
    decreases |ips|
  {
    if |ips| == 0 then []
    else
      var u := Unique(ips[..|ips| - 1]);
      assert forall x :: x in ips <==> x in ips[..|ips| - 1] || x == ips[|ips| - 1];
      var r := if ips[|ips| - 1] in u then u else u + [ips[|ips| - 1]];
      UniqueKeepsOrder(ips, ips[..|ips| - 1], u, r);
      r
  }

  /** Appending the last IP when it is new keeps the distinct IPs in order of first appearance. */
  lemma UniqueKeepsOrder(ips: seq<string>, prefix: seq<string>, u: seq<string>, r: seq<string>)
    requires |ips| > 0 && prefix == ips[..|ips| - 1]
    requires forall x :: x in u <==> x in prefix
    requires forall a, b, j :: 0 <= a < b < |u| && 0 <= j < |prefix| && prefix[j] == u[b] ==> u[a] in prefix[..j]
    requires r == if ips[|ips| - 1] in u then u else u + [ips[|ips| - 1]]
    ensures forall a, b, j :: 0 <= a < b < |r| && 0 <= j < |ips| && ips[j] == r[b] ==> r[a] in ips[..j]
  {
    var n := |ips| - 1;
    forall a, b, j | 0 <= a < b < |r| && 0 <= j < |ips| && ips[j] == r[b]
      ensures r[a] in ips[..j]
    {
      assert r[a] == u[a];
      if j < n {
        assert prefix[j] == ips[j];
        if b < |u| {
          assert prefix[..j] == ips[..j];
        }
      } else {
        assert u[a] in u;
        assert ips[..j] == prefix;
      }
    }
  }

  /**
   * What the geolocation pass gives an IP: the entry the cache already had,
   * unless the address is short-circuited, and the uncached answer otherwise.
   */
  function Expected(env: GeoEnv, cache: map<string, Location>, ip: string): Location {
    if !ShortCircuits(env, ip) && ip in cache then cache[ip] else Resolve(env, ip)
  }

  /**
   * The per-unique-IP geolocation pass: `get_location` once for each
   * distinct IP, in order, collected into a table, then every row's
   * location read from the table entry of its IP.
   */
  method GeolocateRows(env: GeoEnv, cache: map<string, Location>, ips: seq<string>)
    returns (locations: seq<Location>, table: map<string, Location>, cache': map<string, Location>)
    ensures |locations| == |ips|
    ensures table.Keys == set ip | ip in ips
    ensures forall k :: 0 <= k < |ips| ==> locations[k] == table[ips[k]]
    ensures forall ip :: ip in table ==> table[ip] == Expected(env, cache, ip)
    ensures forall k :: k in cache ==> k in cache' && cache'[k] == cache[k]
    ensures forall k :: k in cache' && k !in cache ==> k in ips && Stored(env, k) && cache'[k] == Resolve(env, k)
    ensures forall ip :: ip in table && Stored(env, ip) ==> ip in cache' && cache'[ip] == table[ip]
    ensures forall a, b :: 0 <= a < |ips| && 0 <= b < |ips| && ips[a] == ips[b] ==> locations[a] == locations[b]
    ensures CacheSound(env, cache) ==> forall k :: 0 <= k < |ips| ==> locations[k] == Resolve(env, ips[k])
  {
    var unique := Unique(ips);
    table := map[];
    cache' := cache;
    var i := 0;
    while i < |unique|
      invariant 0 <= i <= |unique|
      invariant PassState(env, cache, unique[..i], table, cache')
    {
      var ip := unique[i];
      assert ip !in unique[..i];
      PassStep(env, cache, unique[..i], table, cache', ip);
      var (loc, next) := GetLocation(env, cache', ip);
      table := table[ip := loc];
      cache' := next;
      assert unique[..i + 1] == unique[..i] + [ip];
      i := i + 1;
    }
    assert unique[..i] == unique;
    locations := ReadTable(table, ips);
  }

  /**
   * The state of the pass after `get_location` has been called for the IPs
   * in `seen`: the table holds exactly those IPs, each with its expected
   * location; old cache entries are untouched, new ones are uncached answers
   * for seen IPs, and every stored lookup sits in the cache.
   */
  predicate PassState(env: GeoEnv, cache: map<string, Location>, seen: seq<string>,
                      table: map<string, Location>, cache': map<string, Location>) {
    && table.Keys == (set x | x in seen)
    && (forall x :: x in table ==> table[x] == Expected(env, cache, x))
    && (forall k :: k in cache ==> k in cache' && cache'[k] == cache[k])
    && (forall k :: k in cache' && k !in cache ==> k in seen && Stored(env, k) && cache'[k] == Resolve(env, k))
    && (forall x :: x in table && Stored(env, x) ==> x in cache' && cache'[x] == table[x])
  }

  /** One `get_location` call for an IP not seen yet keeps the pass state. */
  lemma PassStep(env: GeoEnv, cache: map<string, Location>, seen: seq<string>,
                 table: map<string, Location>, cache': map<string, Location>, ip: string)
    requires PassState(env, cache, seen, table, cache') && ip !in seen
    ensures var (loc, next) := GetLocation(env, cache', ip);
      PassState(env, cache, seen + [ip], table[ip := loc], next)
  {
    var (loc, next) := GetLocation(env, cache', ip);
    var table' := table[ip := loc];
    assert ip in cache' <==> ip in cache;
    assert loc == Expected(env, cache, ip);
    forall x | x in table'
      ensures table'[x] == Expected(env, cache, x)
    {
    }
    forall k | k in next && k !in cache
      ensures k in seen + [ip] && Stored(env, k) && next[k] == Resolve(env, k)
    {
      if k != ip {
        assert k in cache';
      } else {
        assert ip in next && ip !in cache';
      }
    }
    forall x | x in table' && Stored(env, x)
      ensures x in next && next[x] == table'[x]
    {
    }
    assert (set x | x in seen + [ip]) == (set x | x in seen) + {ip};
  }

  /** Every row's entry in the per-IP table (`df['IP'].map(...)`). */
  function ReadTable(table: map<string, Location>, ips: seq<string>): (locations: seq<Location>)
    requires forall k :: 0 <= k < |ips| ==> ips[k] in table
  {
    seq(|ips|, k requires 0 <= k < |ips| => table[ips[k]])
  }
}

=== FILE: ip_address.dfy ===
/**
 * IP extraction and validation: the search for the first substring matching
 * `\d{1,3}\.\d{1,3}\.\d{1,3}\.\d{1,3}`, strict IPv4 validation of that
 * substring, `clean_ip`, and the pass that fills a sentinel IP from the
 * message text.
 */
module IpAddress {
  import opened Options
  import opened Text

  /** Sentinel for an IP field that is empty, "unknown", or holds no address. */
  const Unknown: string := "IP Inconnue"

  /** Sentinel for an IP field whose first address-shaped text is not an IPv4 address. */
  const Invalid: string := "IP Invalide"

  predicate IsDigit(c: char) {
    '0' <= c <= '9'
  }

  predicate AllDigits(s: string) {
    forall i :: 0 <= i < |s| ==> IsDigit(s[i])
  }

  /** Text one `\d{1,3}` piece of the pattern can match. */
  predicate IsDigitGroup(p: string) {
    1 <= |p| <= 3 && AllDigits(p)
  }

  /** Text the whole pattern can match: four digit groups separated by dots. */
  predicate IsDottedQuad(t: string) {
    var parts := Split(t, '.');
    |parts| == 4 && forall k :: 0 <= k < 4 ==> IsDigitGroup(parts[k])
  }

  /** Decimal value of a string of digits. */
  function DecimalValue(p: string): nat
    requires AllDigits(p)
    decreases |p|
  {
    if |p| == 0 then 0
    else DecimalValue(p[..|p| - 1]) * 10 + (p[|p| - 1] as int - '0' as int)
  }

  /**
   * One octet as CPython's `ipaddress` accepts it: one to three ASCII digits,
   * no leading zero except in "0" itself, and a value of at most 255.
   */
  predicate IsOctet(p: string) {
    IsDigitGroup(p) && (p == "0" || p[0] != '0') && DecimalValue(p) <= 255
  }

  /** `ipaddress.ip_address(t)` succeeds: exactly four dot-separated octets. */
  predicate IsValidIPv4(t: string) {
    var parts := Split(t, '.');
    |parts| == 4 && forall k :: 0 <= k < 4 ==> IsOctet(parts[k])
  }

  /** Every valid address is address-shaped. */
  lemma ValidIsDottedQuad(t: string)
    ensures IsValidIPv4(t) ==> IsDottedQuad(t)
  {
  }

  /** Neither sentinel looks like an address. */
  lemma SentinelsAreNotDottedQuads()
    ensures !IsDottedQuad(Unknown) && !IsDottedQuad(Invalid)
  {
    assert forall k :: 0 <= k < |Unknown| ==> Unknown[k] != '.';
    assert forall k :: 0 <= k < |Invalid| ==> Invalid[k] != '.';
    SplitNoSeparator(Unknown, '.');
    SplitNoSeparator(Invalid, '.');
  }

  /** Length of the maximal run of digits starting at index `i`. */
  function DigitRun(s: string, i: nat): (n: nat)
    requires i <= |s|
    ensures i + n <= |s|
    ensures AllDigits(s[i..i + n])
    ensures i + n == |s| || !IsDigit(s[i + n])
    decreases |s| - i
  {
    if i < |s| && IsDigit(s[i]) then
      var rest := DigitRun(s, i + 1);
      assert s[i..i + 1 + rest] == [s[i]] + s[i + 1..i + 1 + rest];
      1 + rest
    else 0
  }

  /** A run is determined by where the digits stop. */
  lemma {:induction false} DigitRunExact(s: string, i: nat, n: nat)
    requires i + n <= |s| && AllDigits(s[i..i + n])
    requires i + n == |s| || !IsDigit(s[i + n])
    ensures DigitRun(s, i) == n
    decreases n
  {
    if n > 0 {
      assert s[i..i + n][0] == s[i];
      assert s[i + 1..i + n] == s[i..i + n][1..];
      DigitRunExact(s, i + 1, n - 1);
    }
  }

  /** A run is at least as long as any all-digit stretch it starts. */
  lemma {:induction false} DigitRunCovers(s: string, i: nat, n: nat)
    requires i + n <= |s| && AllDigits(s[i..i + n])
    ensures DigitRun(s, i) >= n
    decreases n
  {
    if n > 0 {
      assert s[i..i + n][0] == s[i];
      assert s[i + 1..i + n] == s[i..i + n][1..];
      DigitRunCovers(s, i + 1, n - 1);
    }
  }

  /**
   * `\d{1,3}\.` anchored at `i`, backtracking included: the digits must be
   * followed by the dot, so only the whole digit run can be used. Gives the
   * index just after the dot.
   */
  function GroupAndDotAt(s: string, i: nat): (e: Option<nat>)
    requires i <= |s|
    ensures e.Some? ==> i + 2 <= e.value <= |s| && IsDigitGroup(s[i..e.value - 1]) && s[e.value - 1] == '.'
  {
    var n := DigitRun(s, i);
    if 1 <= n <= 3 && i + n < |s| && s[i + n] == '.' then Some(i + n + 1) else None
  }

  /** The closing `\d{1,3}` anchored at `i`: greedy, so up to three digits. */
  function LastGroupAt(s: string, i: nat): (e: Option<nat>)
    requires i <= |s|
    ensures e.Some? ==> i + 1 <= e.value <= |s| && IsDigitGroup(s[i..e.value])
  {
    var n := DigitRun(s, i);
    if n == 0 then None
    else
      var m := if n < 3 then n else 3;
      assert s[i..i + m] == s[i..i + n][..m];
      Some(i + m)
  }

  /** End of the match of the whole pattern anchored at `i`, if it matches there. */
  function MatchAt(s: string, i: nat): (e: Option<nat>)
    requires i <= |s|
    ensures e.Some? ==> i <= e.value <= |s|
  {
    match GroupAndDotAt(s, i)
    case None => None
    case Some(a) =>
      match GroupAndDotAt(s, a)
      case None => None
      case Some(b) => MatchAt3(s, b)
  }

  /** The pattern's last two pieces, from the third digit group on. */
  function MatchAt3(s: string, b: nat): Option<nat>
    requires b <= |s|
  {
    match GroupAndDotAt(s, b)
    case None => None
    case Some(c) => LastGroupAt(s, c)
  }

  /** Rebuilding a text from the parts of its split on '.'. */
  lemma {:induction false} FourParts(t: string)
    requires |Split(t, '.')| == 4
    ensures var p := Split(t, '.');
      t == p[0] + "." + (p[1] + "." + (p[2] + "." + p[3]))
  {
    var p := Split(t, '.');
    JoinSplit(t, '.');
    assert p[1..][1..][1..] == [p[3]];
    assert Join(p[1..][1..], '.') == p[2] + "." + p[3];
    assert Join(p[1..], '.') == p[1] + "." + (p[2] + "." + p[3]);
  }

  /** Reading `g.rest` off the text between `i` and `j`. */
  lemma PeelGroup(s: string, i: nat, j: nat, g: string, rest: string)
    requires i <= j <= |s| && s[i..j] == g + "." + rest
    ensures i + |g| + 1 <= j
    ensures s[i..i + |g|] == g && s[i + |g|] == '.' && s[i + |g| + 1..j] == rest
  {
    assert s[i..j][..|g|] == g;
    assert s[i..j][|g|] == '.';
    assert s[i..j][|g| + 1..] == rest;
  }

  /** A digit group followed by a dot is recognised by GroupAndDotAt. */
  lemma GroupAndDotAtFinds(s: string, i: nat, g: string)
    requires IsDigitGroup(g) && i + |g| < |s| && s[i..i + |g|] == g && s[i + |g|] == '.'
    ensures GroupAndDotAt(s, i) == Some(i + |g| + 1)
  {
    DigitRunExact(s, i, |g|);
  }

  /** Every match is address-shaped. */
  lemma MatchAtSound(s: string, i: nat)
    requires i <= |s| && MatchAt(s, i).Some?
    ensures IsDottedQuad(s[i..MatchAt(s, i).value])
  {
    var a := GroupAndDotAt(s, i).value;
    var b := GroupAndDotAt(s, a).value;
    var c := GroupAndDotAt(s, b).value;
    var j := LastGroupAt(s, c).value;
    assert MatchAt(s, i) == Some(j);
    QuadFromPieces(s, i, a, b, c, j);
  }

  /** Four digit groups, each of the first three followed by a dot, are address-shaped together. */
  lemma QuadFromPieces(s: string, i: nat, a: nat, b: nat, c: nat, j: nat)
    requires i < a < b < c <= j <= |s|
    requires s[a - 1] == '.' && s[b - 1] == '.' && s[c - 1] == '.'
    requires IsDigitGroup(s[i..a - 1]) && IsDigitGroup(s[a..b - 1]) && IsDigitGroup(s[b..c - 1]) && IsDigitGroup(s[c..j])
    ensures IsDottedQuad(s[i..j])
  {
    CutAtDots(s, i, a, b, c, j);
    QuadFromGroups(s[i..a - 1], s[a..b - 1], s[b..c - 1], s[c..j]);
  }

  /** Text with dots just before `a`, `b` and `c` is its four pieces joined by dots. */
  lemma CutAtDots(s: string, i: nat, a: nat, b: nat, c: nat, j: nat)
    requires i < a < b < c <= j <= |s|
    requires s[a - 1] == '.' && s[b - 1] == '.' && s[c - 1] == '.'
    ensures s[i..j] == s[i..a - 1] + "." + (s[a..b - 1] + "." + (s[b..c - 1] + "." + s[c..j]))
  {
    CutAtDot(s, b, c - 1, j);
    CutAtDot(s, a, b - 1, j);
    CutAtDot(s, i, a - 1, j);
  }

  /** Four digit groups joined by dots are address-shaped. */
  lemma QuadFromGroups(g0: string, g1: string, g2: string, g3: string)
    requires IsDigitGroup(g0) && IsDigitGroup(g1) && IsDigitGroup(g2) && IsDigitGroup(g3)
    ensures Split(g0 + "." + (g1 + "." + (g2 + "." + g3)), '.') == [g0, g1, g2, g3]
    ensures IsDottedQuad(g0 + "." + (g1 + "." + (g2 + "." + g3)))
  {
    NoDotInDigits(g0);
    NoDotInDigits(g1);
    NoDotInDigits(g2);
    NoDotInDigits(g3);
    SplitNoSeparator(g3, '.');
    SplitAfterFirst(g2, g3, '.');
    SplitAfterFirst(g1, g2 + "." + g3, '.');
    SplitAfterFirst(g0, g1 + "." + (g2 + "." + g3), '.');
  }

  /** Text around a dot is the text before it, the dot, and the text after it. */
  lemma CutAtDot(s: string, i: nat, d: nat, j: nat)
    requires i <= d < j <= |s| && s[d] == '.'
    ensures s[i..j] == s[i..d] + "." + s[d + 1..j]
  {
  }

  lemma NoDotInDigits(g: string)
    requires AllDigits(g)
    ensures '.' !in g
  {
  }

  /** The match anchored at `i` exists whenever some address-shaped text starts at `i`, and it is the longest one. */
  lemma MatchAtComplete(s: string, i: nat, j: nat)
    requires i <= j <= |s| && IsDottedQuad(s[i..j])
    ensures MatchAt(s, i).Some? && j <= MatchAt(s, i).value
  {
    var g0, g1, g2, g3 := QuadGroups(s[i..j]);
    MatchGroups(s, i, j, g0, g1, g2, g3);
  }

  /** The four digit groups of an address-shaped text. */
  lemma QuadGroups(t: string) returns (g0: string, g1: string, g2: string, g3: string)
    requires IsDottedQuad(t)
    ensures IsDigitGroup(g0) && IsDigitGroup(g1) && IsDigitGroup(g2) && IsDigitGroup(g3)
    ensures t == g0 + "." + (g1 + "." + (g2 + "." + g3))
  {
    var p := Split(t, '.');
    FourParts(t);
    g0, g1, g2, g3 := p[0], p[1], p[2], p[3];
    assert IsDigitGroup(p[0]) && IsDigitGroup(p[1]) && IsDigitGroup(p[2]) && IsDigitGroup(p[3]);
  }

  /** Four digit groups joined by dots between `i` and `j` make the pattern match at `i`, reaching at least `j`. */
  lemma MatchGroups(s: string, i: nat, j: nat, g0: string, g1: string, g2: string, g3: string)
    requires i <= j <= |s| && s[i..j] == g0 + "." + (g1 + "." + (g2 + "." + g3))
    requires IsDigitGroup(g0) && IsDigitGroup(g1) && IsDigitGroup(g2) && IsDigitGroup(g3)
    ensures MatchAt(s, i).Some? && j <= MatchAt(s, i).value
  {
    var a := StepGroup(s, i, j, g0, g1 + "." + (g2 + "." + g3));
    var b := StepGroup(s, a, j, g1, g2 + "." + g3);
    LastTwoGroups(s, b, j, g2, g3);
  }

  /** The third group, its dot and the last group between `b` and `j` match, reaching at least `j`. */
  lemma LastTwoGroups(s: string, b: nat, j: nat, g2: string, g3: string)
    requires b <= j <= |s| && s[b..j] == g2 + "." + g3
    requires IsDigitGroup(g2) && IsDigitGroup(g3)
    ensures MatchAt3(s, b).Some? && j <= MatchAt3(s, b).value
  {
    var c := StepGroup(s, b, j, g2, g3);
    DigitRunCovers(s, c, |g3|);
  }

  /** Reading one digit group and its dot off the text between `i` and `j`; `next` is where the rest starts. */
  lemma StepGroup(s: string, i: nat, j: nat, g: string, rest: string) returns (next: nat)
    requires i <= j <= |s| && s[i..j] == g + "." + rest && IsDigitGroup(g)
    ensures next == i + |g| + 1 <= j
    ensures GroupAndDotAt(s, i) == Some(next) && s[next..j] == rest
  {
    PeelGroup(s, i, j, g, rest);
    GroupAndDotAtFinds(s, i, g);
    next := i + |g| + 1;
  }

  /** Some address-shaped text occurs in `s`. */
  predicate HasDottedQuad(s: string) {
    exists i: nat, j: nat | i <= j <= |s| :: IsDottedQuad(s[i..j])
  }

  /**
   * `s[i..j]` is what `re.search` returns for the pattern: address-shaped,
   * starting as far left as possible, and as long as possible from there.
   */
  predicate IsFirstMatch(s: string, i: nat, j: nat) {
    && i <= j <= |s|
    && IsDottedQuad(s[i..j])
    && (forall i': nat, j': nat | i' < i && i' <= j' <= |s| :: !IsDottedQuad(s[i'..j']))
    && (forall j': nat | i <= j' <= |s| && IsDottedQuad(s[i..j']) :: j' <= j)
  }

  /** The leftmost index from `from` on at which the pattern matches. */
  function FirstStart(s: string, from: nat): (r: Option<nat>)
    requires from <= |s|
    ensures r.Some? ==> from <= r.value <= |s| && MatchAt(s, r.value).Some?
    decreases |s| - from
  {
    if MatchAt(s, from).Some? then Some(from)
    else if from == |s| then None
    else FirstStart(s, from + 1)
  }

  /** No start between `from` and the one FirstStart finds matches; when it finds none, no start matches at all. */
  lemma {:induction false} FirstStartLeftmost(s: string, from: nat, k: nat)
    requires from <= k <= |s|
    requires FirstStart(s, from).None? || k < FirstStart(s, from).value
    ensures MatchAt(s, k).None?
    decreases k - from
  {
    if MatchAt(s, from).Some? {
      assert false;
    } else if from < k {
      assert FirstStart(s, from) == FirstStart(s, from + 1);
      FirstStartLeftmost(s, from + 1, k);
    }
  }

  /** What FirstStart(s, 0) finds, restated through address-shaped text alone. */
  lemma FirstStartCorrect(s: string)
    ensures FirstStart(s, 0).Some? ==> IsFirstMatch(s, FirstStart(s, 0).value, MatchAt(s, FirstStart(s, 0).value).value)
    ensures FirstStart(s, 0).None? <==> !HasDottedQuad(s)
  {
    var r := FirstStart(s, 0);
    forall k | 0 <= k <= |s| && (r.None? || k < r.value)
      ensures MatchAt(s, k).None?
    {
      FirstStartLeftmost(s, 0, k);
    }
    if r.Some? {
      var i := r.value;
      var j := MatchAt(s, i).value;
      MatchAtSound(s, i);
      forall i': nat, j': nat | i' < i && i' <= j' <= |s|
        ensures !IsDottedQuad(s[i'..j'])
      {
        if IsDottedQuad(s[i'..j']) {
          MatchAtComplete(s, i', j');
        }
      }
      forall j': nat | i <= j' <= |s| && IsDottedQuad(s[i..j'])
        ensures j' <= j
      {
        MatchAtComplete(s, i, j');
      }
      assert HasDottedQuad(s) by {
        assert IsDottedQuad(s[i..j]);
      }
    } else {
      forall i': nat, j': nat | i' <= j' <= |s|
        ensures !IsDottedQuad(s[i'..j'])
      {
        if IsDottedQuad(s[i'..j']) {
          MatchAtComplete(s, i', j');
        }
      }
    }
  }

  /** `re.search(pattern, s)`: the bounds of the first match, if any. */
  function Search(s: string): (r: Option<(nat, nat)>)
    ensures r.Some? ==> IsFirstMatch(s, r.value.0, r.value.1)
    ensures r.None? <==> !HasDottedQuad(s)
  {
    FirstStartCorrect(s);
    match FirstStart(s, 0)
    case None => None
    case Some(i) => Some((i, MatchAt(s, i).value))
  }

  /** The first match is unique: any two descriptions of it agree. */
  lemma FirstMatchUnique(s: string, i: nat, j: nat, i': nat, j': nat)
    requires IsFirstMatch(s, i, j) && IsFirstMatch(s, i', j')
    ensures i == i' && j == j'
  {
  }

  /** `match.group(0)` of the first match, if any. */
  function FirstMatchText(s: string): (m: Option<string>)
    ensures m.Some? ==> IsDottedQuad(m.value)
    ensures m.None? <==> !HasDottedQuad(s)
    ensures forall i: nat, j: nat :: IsFirstMatch(s, i, j) ==> m == Some(s[i..j])
  {
    match Search(s)
    case None => None
    case Some((i, j)) =>
      assert forall i': nat, j': nat :: IsFirstMatch(s, i', j') ==> i' == i && j' == j by {
        forall i': nat, j': nat | IsFirstMatch(s, i', j') ensures i' == i && j' == j {
          FirstMatchUnique(s, i, j, i', j');
        }
      }
      Some(s[i..j])
  }

  /**
   * `clean_ip`: the sentinel Unknown for an empty or "unknown" field or one
   * without address-shaped text; otherwise the first address-shaped
   * substring when it is a valid IPv4 address, and the sentinel Invalid when
   * it is not.
   */
  function CleanIp(field: string): (ip: string)
    ensures ip == Unknown || ip == Invalid || IsValidIPv4(ip)
  {
    if field == "" || field == "unknown" then Unknown
    else
      match FirstMatchText(field)
      case None => Unknown
      case Some(m) => if IsValidIPv4(m) then m else Invalid
  }

  /** What `clean_ip` returns, stated through the first match alone. */
  lemma CleanIpCases(field: string)
    ensures CleanIp(field) == Unknown <==> field == "" || field == "unknown" || !HasDottedQuad(field)
    ensures forall i: nat, j: nat :: IsFirstMatch(field, i, j) && field != "unknown" ==>
      CleanIp(field) == if IsValidIPv4(field[i..j]) then field[i..j] else Invalid
  {
    SentinelsAreNotDottedQuads();
    var m := FirstMatchText(field);
    if m.Some? {
      ValidIsDottedQuad(m.value);
    }
  }

  /** Four digit groups joined by dots form an address exactly when each group is an octet. */
  lemma ValidIPv4Iff(g0: string, g1: string, g2: string, g3: string)
    requires IsDigitGroup(g0) && IsDigitGroup(g1) && IsDigitGroup(g2) && IsDigitGroup(g3)
    ensures IsValidIPv4(g0 + "." + (g1 + "." + (g2 + "." + g3))) <==>
      IsOctet(g0) && IsOctet(g1) && IsOctet(g2) && IsOctet(g3)
  {
    QuadFromGroups(g0, g1, g2, g3);
    var p := Split(g0 + "." + (g1 + "." + (g2 + "." + g3)), '.');
    assert p[0] == g0 && p[1] == g1 && p[2] == g2 && p[3] == g3;
  }

  /** A leading zero makes an octet invalid: "010.0.0.1" is address-shaped but not an address. */
  lemma ExampleLeadingZeroIsInvalid()
    ensures CleanIp("010.0.0.1") == Invalid
  {
    var f := "010.0.0.1";
    assert f == "010" + "." + ("0" + "." + ("0" + "." + "1"));
    assert IsDigitGroup("010") && IsDigitGroup("0") && IsDigitGroup("1");
    assert !IsOctet("010");
    ValidIPv4Iff("010", "0", "0", "1");
    QuadFromGroups("010", "0", "0", "1");
    WholeTextIsFirstMatch(f);
  }

  /** An IP field "999.999.999.999" is address-shaped but not an address. */
  lemma ExampleOutOfRangeIsInvalid()
    ensures CleanIp("999.999.999.999") == Invalid
  {
    var f := "999.999.999.999";
    assert f == "999" + "." + ("999" + "." + ("999" + "." + "999"));
    NotOctet999();
    RepeatedGroup("999");
    WholeTextIsFirstMatch(f);
  }

  /** 999 is out of an octet's range. */
  lemma NotOctet999()
    ensures IsDigitGroup("999") && !IsOctet("999")
  {
    assert DecimalValue("999") == 999 by {
      assert "999"[..2] == "99" && "99"[..1] == "9" && "9"[..0] == "";
    }
  }

  /** A digit group repeated four times is address-shaped, and an address only if the group is an octet. */
  lemma RepeatedGroup(g: string)
    requires IsDigitGroup(g)
    ensures var t := g + "." + (g + "." + (g + "." + g));
      IsDottedQuad(t) && (IsValidIPv4(t) <==> IsOctet(g))
  {
    QuadFromGroups(g, g, g, g);
    var p := Split(g + "." + (g + "." + (g + "." + g)), '.');
    assert forall k :: 0 <= k < 4 ==> p[k] == g;
    if IsOctet(g) {
      assert forall k :: 0 <= k < 4 ==> IsOctet(p[k]);
    } else {
      assert !IsOctet(p[0]);
    }
  }

  /** An address-shaped text is its own first match. */
  lemma WholeTextIsFirstMatch(t: string)
    requires IsDottedQuad(t)
    ensures IsFirstMatch(t, 0, |t|) && FirstMatchText(t) == Some(t)
  {
    assert t[0..|t|] == t;
  }

  /**
   * The fallback pass over rows whose IP is a sentinel: the first
   * address-shaped text of the message, not validated, or Unknown when the
   * message has none. Other rows keep their IP.
   */
  function FillFromMessage(ip: string, message: string): (r: string)
    ensures ip != Unknown && ip != Invalid ==> r == ip
    ensures ip == Unknown || ip == Invalid ==> (r == Unknown <==> !HasDottedQuad(message))
    ensures ip == Unknown || ip == Invalid ==>
      forall i: nat, j: nat :: IsFirstMatch(message, i, j) ==> r == message[i..j]
  {
    if ip == Unknown || ip == Invalid then
      SentinelsAreNotDottedQuads();
      FirstMatchText(message).GetOr(Unknown)
    else ip
  }

  /** The IP a record ends up with: cleaned from its field, then filled from its message. */
  function ResolveIp(field: string, message: string): (ip: string)
    ensures ip != Invalid
    ensures ip == Unknown || IsDottedQuad(ip)
    ensures CleanIp(field) != Unknown && CleanIp(field) != Invalid ==> ip == CleanIp(field) && IsValidIPv4(ip)
  {
    var cleaned := CleanIp(field);
    SentinelsAreNotDottedQuads();
    ValidIsDottedQuad(cleaned);
    FillFromMessage(cleaned, message)
  }
}

=== FILE: options.dfy ===
/** The usual Some/None datatype, used wherever the program has a value that may be absent. */
module Options {

  datatype Option<+T> = None | Some(value: T) {

    /** The wrapped value, or `default` when there is none. */
    function GetOr(default: T): T {
      match this
      case Some(v) => v
      case None => default
    }
  }
}

=== FILE: pipeline.dfy ===
/**
 * `load_data` without its cache, UI and sampling: the lines of the upload
 * become one normalised record each, in order. Each record's eight fields
 * come from the repaired row, its timestamp is coerced, its IP is cleaned
 * and then filled from the message, its message is classified, and, when
 * geolocation is on and the database was downloaded, it gets the location
 * of its IP.
 */
module Pipeline {
  import opened Options
  import opened Rows
  import opened Timestamps
  import opened Geolocation
  import IpAddress
  import Categories
  import Text

  /** One normalised log record. */
  datatype LogRecord = LogRecord(
    timestamp: Instant,
    lab: string,
    service: string,
    pid: string,
    ip: string,
    user: string,
    eventCode: string,
    message: string,
    category: Categories.Category,
    location: Location)

  /** Column positions of the repaired row. */
  const TimestampColumn: nat := 0
  const LabColumn: nat := 1
  const ServiceColumn: nat := 2
  const PidColumn: nat := 3
  const IpColumn: nat := 4
  const UserColumn: nat := 5
  const EventCodeColumn: nat := 6

  /** The location every row gets when geolocation does not run. */
  const DisabledLocation: Location := Location(Disabled, None, None)

  /** The IP a line's record gets: its IP field cleaned, then filled from its message. */
  function LineIp(line: string): (ip: string)
    ensures ip != IpAddress.Invalid
    ensures ip == IpAddress.Unknown || IpAddress.IsDottedQuad(ip)
  {
    var row := Repair(Fields(line));
    IpAddress.ResolveIp(row[IpColumn], row[MessageIndex])
  }

  /**
   * A line of eight or more fields is rebuilt from its repaired row: the first
   * seven fields joined with ';', then ';', then the message. The timestamp and
   * IP fields are the line's own.
   */
  lemma RowRebuildsLine(line: string)
    ensures |Fields(line)| >= FieldCount ==>
      var row := Repair(Fields(line));
      && row[TimestampColumn] == Fields(line)[TimestampColumn]
      && row[IpColumn] == Fields(line)[IpColumn]
      && line == Text.Join([row[0], row[1], row[2], row[3], row[4], row[5], row[6]], Delimiter) + [Delimiter] + row[MessageIndex]
  {
    if |Fields(line)| >= FieldCount {
      var row := Repair(Fields(line));
      LongLineRoundTrip(line);
      assert row[..MessageIndex] == [row[0], row[1], row[2], row[3], row[4], row[5], row[6]];
    }
  }

  /**
   * The record built from one line, given its coerced timestamp and its
   * location: the repaired row's fields passed through, the IP cleaned and
   * filled from the message, and the message classified. Its IP is never the
   * invalid sentinel, its category is its message's, a long line is rebuilt
   * from the record with the raw timestamp and IP fields put back, and a line
   * of seven fields or fewer has an empty message.
   */
  function Normalise(line: string, timestamp: Instant, location: Location): (r: LogRecord)
    ensures r.ip != IpAddress.Invalid && (r.ip == IpAddress.Unknown || IpAddress.IsDottedQuad(r.ip))
    ensures r.category == Categories.Categorize(r.message)
    ensures r.timestamp == timestamp && r.location == location
    ensures |Fields(line)| >= FieldCount ==>
      line == Text.Join([Fields(line)[TimestampColumn], r.lab, r.service, r.pid, Fields(line)[IpColumn], r.user, r.eventCode],
                   Delimiter) + [Delimiter] + r.message
    ensures |Fields(line)| <= MessageIndex ==> r.message == ""
  {
    var row := Repair(Fields(line));
    RowRebuildsLine(line);
    LogRecord(timestamp, row[LabColumn], row[ServiceColumn], row[PidColumn],
              LineIp(line), row[UserColumn], row[EventCodeColumn],
              row[MessageIndex], Categories.Categorize(row[MessageIndex]), location)
  }

  /** The record of every line, given the columns of coerced timestamps and locations. */
  function NormaliseAll(lines: seq<string>, times: seq<Instant>, locations: seq<Location>)
    : (records: seq<LogRecord>)
    requires |times| == |lines| && |locations| == |lines|
  {
    seq(|lines|, i requires 0 <= i < |lines| => Normalise(lines[i], times[i], locations[i]))
  }

  /** The timestamp column of a table of records. */
  function TimesOf(records: seq<LogRecord>): (times: seq<Instant>)
  {
    seq(|records|, i requires 0 <= i < |records| => records[i].timestamp)
  }

  /**
   * What the geolocation step promises of an IP column, the location column
   * it produces and the cache before and after: with geolocation on, each IP
   * gets the entry the cache already held or else the uncached answer (so,
   * with a sound cache, exactly the uncached answer, and the cache stays
   * sound); rows with the same IP get the same location; with geolocation
   * off every row gets the disabled location and the cache is untouched;
   * existing cache entries are never changed, new ones are uncached answers
   * for the column's IPs, and with geolocation on every lookup that
   * `get_location` keeps is in the cache afterwards, holding the row's location.
   */
  predicate Located(geoEnabled: bool, env: GeoEnv, cache: map<string, Location>,
                    ips: seq<string>, locations: seq<Location>, cache': map<string, Location>) {
    && |locations| == |ips|
    && (geoEnabled && env.downloaded ==>
          forall i :: 0 <= i < |ips| ==> locations[i] == Expected(env, cache, ips[i]))
    && (geoEnabled && env.downloaded && CacheSound(env, cache) ==>
          CacheSound(env, cache') && forall i :: 0 <= i < |ips| ==> locations[i] == Resolve(env, ips[i]))
    && (forall i, j :: 0 <= i < |ips| && 0 <= j < |ips| && ips[i] == ips[j] ==> locations[i] == locations[j])
    && (!(geoEnabled && env.downloaded) ==>
          cache' == cache && forall i :: 0 <= i < |ips| ==> locations[i] == DisabledLocation)
    && (forall k :: k in cache ==> k in cache' && cache'[k] == cache[k])
    && (forall k :: k in cache' && k !in cache ==> k in ips && Stored(env, k) && cache'[k] == Resolve(env, k))
    && (geoEnabled ==>
          forall i :: 0 <= i < |ips| && Stored(env, ips[i]) ==> ips[i] in cache' && cache'[ips[i]] == locations[i])
  }

  /** The geolocation step of the load: the per-unique-IP pass when it is on, the disabled location otherwise. */
  method Locate(geoEnabled: bool, env: GeoEnv, cache: map<string, Location>, ips: seq<string>)
    returns (locations: seq<Location>, cache': map<string, Location>)
    ensures Located(geoEnabled, env, cache, ips, locations, cache')
  {
    if geoEnabled && env.downloaded {
      var table;
      locations, table, cache' := GeolocateRows(env, cache, ips);
    } else {
      locations := seq(|ips|, _ => DisabledLocation);
      cache' := cache;
    }
  }

  /** The IP of every line, in order. */
  function LineIps(lines: seq<string>): (ips: seq<string>)
  {
    seq(|lines|, i requires 0 <= i < |lines| => LineIp(lines[i]))
  }

  /** The IP column of a table of records. */
  function IpsOf(records: seq<LogRecord>): (ips: seq<string>)
  {
    seq(|records|, i requires 0 <= i < |records| => records[i].ip)
  }

  /** The location column of a table of records. */
  function LocationsOf(records: seq<LogRecord>): (locations: seq<Location>)
  {
    seq(|records|, i requires 0 <= i < |records| => records[i].location)
  }

  /** The records built from the lines carry, column by column, the line IPs and the given timestamps and locations. */
  lemma NormaliseAllColumns(lines: seq<string>, times: seq<Instant>, locations: seq<Location>)
    requires |times| == |lines| && |locations| == |lines|
    ensures IpsOf(NormaliseAll(lines, times, locations)) == LineIps(lines)
    ensures TimesOf(NormaliseAll(lines, times, locations)) == times
    ensures LocationsOf(NormaliseAll(lines, times, locations)) == locations
  {
  }

  /** The rows whose timestamp does not parse. */
  function UnparsedRows(lines: seq<string>, parse: string -> Option<Instant>): set<nat> {
    set i: nat | i < |lines| && parse(Repair(Fields(lines[i]))[TimestampColumn]).None?
  }

  /** The Timestamp column of the repaired rows. */
  function TimestampFields(lines: seq<string>): (stamps: seq<string>)
  {
    seq(|lines|, i requires 0 <= i < |lines| => Repair(Fields(lines[i]))[TimestampColumn])
  }

  /** Counting the rejected timestamps counts the rows that get `now`. */
  lemma CountIsUnparsedRows(lines: seq<string>, parse: string -> Option<Instant>)
    ensures CountUnparsed(TimestampFields(lines), parse) == |UnparsedRows(lines, parse)|
  {
    CountIsReplacedRows(TimestampFields(lines), parse);
    assert Replaced(TimestampFields(lines), parse) == UnparsedRows(lines, parse);
  }

  /**
   * The record pipeline over the lines of an upload. `parse` and `now` stand
   * for the flexible date parser and the clock, `env` for the database, and
   * `cache` is the geolocation cache before the load and `cache'` after it.
   */
  method LoadData(lines: seq<string>, parse: string -> Option<Instant>, now: Instant,
                  geoEnabled: bool, env: GeoEnv, cache: map<string, Location>)
    returns (records: seq<LogRecord>, invalidTimestamps: nat, cache': map<string, Location>)
    ensures |records| == |lines|
    ensures records == NormaliseAll(lines, TimesOf(records), LocationsOf(records))
    ensures forall i :: 0 <= i < |lines| ==> records[i].timestamp == parse(TimestampFields(lines)[i]).GetOr(now)
    ensures invalidTimestamps == CountUnparsed(TimestampFields(lines), parse)
    ensures Located(geoEnabled, env, cache, IpsOf(records), LocationsOf(records), cache')
  {
    var times;
    times, invalidTimestamps := Coerce(TimestampFields(lines), parse, now);
    var ips := LineIps(lines);
    var locations;
    locations, cache' := Locate(geoEnabled, env, cache, ips);
    records := NormaliseAll(lines, times, locations);
    NormaliseAllColumns(lines, times, locations);
  }
}

=== FILE: rows.dfy ===
/**
 * Reading the uploaded log: each line is split on ';' with quoting switched
 * off, and the resulting row is repaired to exactly eight fields
 * (Timestamp, Lab, Service, PID, IP, User, EventCode, Message).
 */
module Rows {
  import opened Text

  /** The number of columns of a log record. */
  const FieldCount: nat := 8

  /** The column delimiter of the log export. */
  const Delimiter: char := ';'

  /** Index of the free-text Message column, which absorbs surplus fields. */
  const MessageIndex: nat := 7

  /**
   * The fields a `csv.reader` with delimiter ';' and no quoting yields for one
   * line: nothing for a blank line, otherwise the ';'-separated pieces.
   */
  function Fields(line: string): (fields: seq<string>)
    ensures line == "" <==> fields == []
    ensures SeparatorFree(fields, Delimiter)
  {
    if line == "" then []
    else
      SplitPartsSeparatorFree(line, Delimiter);
      Split(line, Delimiter)
  }

  /** Joining the fields of any line with ';' gives the line back (a blank line has no fields). */
  lemma FieldsRoundTrip(line: string)
    ensures Join(Fields(line), Delimiter) == line
  {
    JoinSplit(line, Delimiter);
  }

  /**
   * Row-shape repair: a short row is padded with empty fields, and in a long
   * row every field from the eighth on is re-joined with ';' into Message.
   */
  function Repair(row: seq<string>): (r: seq<string>)
    ensures |r| == FieldCount
    ensures |row| <= FieldCount ==> r[..|row|] == row
    ensures forall k :: |row| <= k < FieldCount ==> r[k] == ""
    ensures |row| == FieldCount ==> r == row
    ensures |row| >= FieldCount ==> r[..MessageIndex] == row[..MessageIndex]
    ensures |row| >= FieldCount ==> r[MessageIndex] == Join(row[MessageIndex..], Delimiter)
  {
    if |row| < FieldCount then row + seq(FieldCount - |row|, _ => "")
    else if |row| > FieldCount then row[..MessageIndex] + [Join(row[MessageIndex..], Delimiter)]
    else row
  }

  /** Repairing a long row loses no text: its ';'-joined form is unchanged. */
  lemma RepairKeepsText(row: seq<string>)
    requires |row| >= FieldCount
    ensures Join(Repair(row), Delimiter) == Join(row, Delimiter)
  {
    var r := Repair(row);
    assert r == row[..MessageIndex] + [r[MessageIndex]];
    JoinAppend(row[..MessageIndex], [r[MessageIndex]], Delimiter);
    JoinAppend(row[..MessageIndex], row[MessageIndex..], Delimiter);
    assert row[..MessageIndex] + row[MessageIndex..] == row;
  }

  /**
   * A line with at least seven delimiters is rebuilt exactly from its repaired
   * row: the first seven fields joined with ';', then ';', then Message.
   */
  lemma LongLineRoundTrip(line: string)
    requires |Fields(line)| >= FieldCount
    ensures Join(Repair(Fields(line)), Delimiter) == line
    ensures line == Join(Repair(Fields(line))[..MessageIndex], Delimiter) + [Delimiter] + Repair(Fields(line))[MessageIndex]
  {
    var r := Repair(Fields(line));
    FieldsRoundTrip(line);
    RepairKeepsText(Fields(line));
    assert r == r[..MessageIndex] + [r[MessageIndex]];
    JoinAppend(r[..MessageIndex], [r[MessageIndex]], Delimiter);
  }

  /** A line with fewer than eight fields keeps them all, in order, followed by empty fields. */
  lemma ShortLineKept(line: string)
    requires |Fields(line)| < FieldCount
    ensures line == "" ==> Repair(Fields(line)) == ["", "", "", "", "", "", "", ""]
    ensures line != "" ==> Join(Repair(Fields(line))[..|Fields(line)|], Delimiter) == line
  {
    var r := Repair(Fields(line));
    if line == "" {
      assert r == ["", "", "", "", "", "", "", ""];
    } else {
      FieldsRoundTrip(line);
    }
  }
}

=== FILE: text.dfy ===
/**
 * String helpers shared by the record pipeline: ASCII case folding, substring
 * search, and splitting / joining on a single separator character (the
 * behaviour of Python's `str.split(sep)` and `sep.join(parts)`).
 */
module Text {

  /** ASCII lower-casing of one character; every other character is kept. */
  function LowerChar(c: char): char {
    if 'A' <= c <= 'Z' then (c as int + 32) as char else c
  }

  /** ASCII upper-casing of one character; every other character is kept. */
  function UpperChar(c: char): char {
    if 'a' <= c <= 'z' then (c as int - 32) as char else c
  }

  /**
   * `s.lower()`, restricted to the ASCII letters: no capital letter is left,
   * and upper-casing cannot tell the result from `s` (LowerUnique shows these
   * two facts determine the result).
   */
  function Lower(s: string): (r: string)
    ensures forall i :: 0 <= i < |r| ==> !('A' <= r[i] <= 'Z')
    ensures Upper(r) == Upper(s)
  {
    var r := seq(|s|, i requires 0 <= i < |s| => LowerChar(s[i]));
    assert forall i | 0 <= i < |s| :: Upper(r)[i] == Upper(s)[i];
    r
  }

  /** `s.upper()`, restricted to the ASCII letters: no small letter is left. */
  function Upper(s: string): (r: string)
    ensures forall i :: 0 <= i < |r| ==> !('a' <= r[i] <= 'z')
  {
    seq(|s|, i requires 0 <= i < |s| => UpperChar(s[i]))
  }

  /** The only text without capitals that upper-cases like `s` is Lower(s). */
  lemma LowerUnique(s: string, r: string)
    requires forall i :: 0 <= i < |r| ==> !('A' <= r[i] <= 'Z')
    requires Upper(r) == Upper(s)
    ensures r == Lower(s)
  {
    assert |r| == |Upper(r)| == |Upper(s)| == |s|;
    forall i | 0 <= i < |s|
      ensures r[i] == Lower(s)[i]
    {
      assert UpperChar(r[i]) == Upper(r)[i] == Upper(s)[i] == UpperChar(s[i]);
    }
  }

  /** Lower-casing is idempotent, and it forgets any earlier change of case. */
  lemma LowerAbsorbsCase(s: string)
    ensures Lower(Lower(s)) == Lower(s)
    ensures Lower(Upper(s)) == Lower(s)
  {
    assert forall i :: 0 <= i < |s| ==> Lower(Lower(s))[i] == Lower(s)[i];
    assert forall i :: 0 <= i < |s| ==> Lower(Upper(s))[i] == Lower(s)[i];
  }

  /** `p` occurs in `s` starting at index `i`. */
  predicate OccursAt(s: string, p: string, i: nat) {
    i + |p| <= |s| && s[i..i + |p|] == p
  }

  /** `p in s` for strings: `p` occurs as a contiguous substring of `s`. */
  predicate Contains(s: string, p: string) {
    exists i: nat | i <= |s| :: OccursAt(s, p, i)
  }

  /**
   * `s.split(sep)`: the maximal runs of non-separator characters, in order.
   * There is always at least one part, and a string with k separators has
   * k + 1 parts.
   */
  function Split(s: string, sep: char): (parts: seq<string>)
    ensures |parts| >= 1
    decreases |s|
  {
    if |s| == 0 then [""]
    else
      var rest := Split(s[1..], sep);
      if s[0] == sep then [""] + rest
      else [[s[0]] + rest[0]] + rest[1..]
  }

  /** `sep.join(parts)`; joining no parts gives the empty string. */
  function Join(parts: seq<string>, sep: char): string
    decreases |parts|
  {
    if |parts| == 0 then ""
    else if |parts| == 1 then parts[0]
    else parts[0] + [sep] + Join(parts[1..], sep)
  }

  /** Neither of the parts contains the separator. */
  predicate SeparatorFree(parts: seq<string>, sep: char) {
    forall k :: 0 <= k < |parts| ==> sep !in parts[k]
  }

  /** No part produced by Split contains the separator. */
  lemma {:induction false} SplitPartsSeparatorFree(s: string, sep: char)
    ensures SeparatorFree(Split(s, sep), sep)
    decreases |s|
  {
    if |s| > 0 {
      SplitPartsSeparatorFree(s[1..], sep);
    }
  }

  /** A string without the separator splits into itself alone. */
  lemma {:induction false} SplitNoSeparator(s: string, sep: char)
    requires sep !in s
    ensures Split(s, sep) == [s]
    decreases |s|
  {
    if |s| > 0 {
      assert sep !in s[1..];
      SplitNoSeparator(s[1..], sep);
      assert [s[0]] + s[1..] == s;
    }
  }

  /** Splitting `a + sep + b`, where `a` has no separator, peels `a` off as the first part. */
  lemma {:induction false} SplitAfterFirst(a: string, b: string, sep: char)
    requires sep !in a
    ensures Split(a + [sep] + b, sep) == [a] + Split(b, sep)
    decreases |a|
  {
    var s := a + [sep] + b;
    if |a| == 0 {
      assert s[0] == sep && s[1..] == b;
    } else {
      assert s[0] == a[0] && s[1..] == a[1..] + [sep] + b;
      assert sep !in a[1..];
      SplitAfterFirst(a[1..], b, sep);
      assert [a[0]] + a[1..] == a;
    }
  }

  /** Join undoes Split: `sep.join(s.split(sep)) == s`. */
  lemma {:induction false} JoinSplit(s: string, sep: char)
    ensures Join(Split(s, sep), sep) == s
    decreases |s|
  {
    if |s| > 0 {
      var rest := Split(s[1..], sep);
      JoinSplit(s[1..], sep);
      if s[0] == sep {
        assert Split(s, sep) == [""] + rest;
        assert ([""] + rest)[1..] == rest;
        assert s == [sep] + s[1..];
      } else {
        var parts := [[s[0]] + rest[0]] + rest[1..];
        assert Split(s, sep) == parts;
        if |rest| == 1 {
          assert Join(parts, sep) == [s[0]] + rest[0];
        } else {
          assert parts[1..] == rest[1..];
          assert Join(rest, sep) == rest[0] + [sep] + Join(rest[1..], sep);
          assert Join(parts, sep) == [s[0]] + rest[0] + [sep] + Join(rest[1..], sep);
        }
      }
    }
  }

  /** Split undoes Join when no part contains the separator. */
  lemma {:induction false} SplitJoin(parts: seq<string>, sep: char)
    requires |parts| >= 1 && SeparatorFree(parts, sep)
    ensures Split(Join(parts, sep), sep) == parts
    decreases |parts|
  {
    if |parts| == 1 {
      SplitNoSeparator(parts[0], sep);
    } else {
      SplitJoin(parts[1..], sep);
      SplitAfterFirst(parts[0], Join(parts[1..], sep), sep);
      assert [parts[0]] + parts[1..] == parts;
    }
  }

  /** Joining a concatenation joins the two halves with one more separator. */
  lemma {:induction false} JoinAppend(a: seq<string>, b: seq<string>, sep: char)
    requires |a| >= 1 && |b| >= 1
    ensures Join(a + b, sep) == Join(a, sep) + [sep] + Join(b, sep)
    decreases |a|
  {
    if |a| == 1 {
      assert (a + b)[0] == a[0] && (a + b)[1..] == b;
    } else {
      JoinAppend(a[1..], b, sep);
      assert (a + b)[0] == a[0] && (a + b)[1..] == a[1..] + b;
    }
  }
}

=== FILE: timestamps.dfy ===
/**
 * Timestamp coercion: every Timestamp field is parsed on its own; a field
 * that does not parse is replaced by the single "now" of the load, the
 * replacements are counted, and no row is dropped.
 *
 * The flexible date parser and the clock are parameters.
 */
module Timestamps {
  import opened Options

  /** A point in time as the parser produces it (nanoseconds since the epoch); the model only copies it. */
  type Instant = int

  /** How many of the fields the parser rejects. */
  function CountUnparsed(fields: seq<string>, parse: string -> Option<Instant>): (n: nat)
    ensures n <= |fields|
    decreases |fields|
  {
    if |fields| == 0 then 0
    else CountUnparsed(fields[..|fields| - 1], parse) + (if parse(fields[|fields| - 1]).None? then 1 else 0)
  }

  /** The rows whose timestamp is replaced by `now`. */
  function Replaced(fields: seq<string>, parse: string -> Option<Instant>): set<nat> {
    set k: nat | k < |fields| && parse(fields[k]).None?
  }

  /** The count of rejected fields is the number of rows that get `now`. */
  lemma {:induction false} CountIsReplacedRows(fields: seq<string>, parse: string -> Option<Instant>)
    ensures CountUnparsed(fields, parse) == |Replaced(fields, parse)|
    decreases |fields|
  {
    if |fields| > 0 {
      var n := |fields| - 1;
      var init := fields[..n];
      CountIsReplacedRows(init, parse);
      assert forall k :: 0 <= k < n ==> init[k] == fields[k];
      if parse(fields[n]).None? {
        assert Replaced(fields, parse) == Replaced(init, parse) + {n};
      } else {
        assert Replaced(fields, parse) == Replaced(init, parse);
      }
    }
  }

  /**
   * The coercion of the Timestamp column: one instant per field, in order,
   * the parsed value where there is one and `now` elsewhere, with the number
   * of replaced fields.
   */
  method Coerce(fields: seq<string>, parse: string -> Option<Instant>, now: Instant)
    returns (times: seq<Instant>, invalid: nat)
    ensures |times| == |fields|
    ensures forall k :: 0 <= k < |fields| ==> times[k] == parse(fields[k]).GetOr(now)
    ensures invalid == CountUnparsed(fields, parse)
  {
    times := [];
    invalid := 0;
    var i := 0;
    while i < |fields|
      invariant 0 <= i <= |fields|
      invariant |times| == i
      invariant forall k :: 0 <= k < i ==> times[k] == parse(fields[k]).GetOr(now)
      invariant invalid == CountUnparsed(fields[..i], parse)
    {
      var parsed := parse(fields[i]);
      if parsed.None? {
        invalid := invalid + 1;
      }
      times := times + [parsed.GetOr(now)];
      assert fields[..i + 1][..i] == fields[..i];
      i := i + 1;
    }
    assert fields[..i] == fields;
  }

  /** Where nothing fails to parse, nothing is replaced. */
  lemma NoneReplacedWhenAllParse(fields: seq<string>, parse: string -> Option<Instant>)
    requires forall k :: 0 <= k < |fields| ==> parse(fields[k]).Some?
    ensures CountUnparsed(fields, parse) == 0
  {
    CountIsReplacedRows(fields, parse);
    assert Replaced(fields, parse) == {};
  }
}
